=== FILE: README.md ===
# tabris-js-cli live-development core, modelled in Dafny

This project models the sequential decision logic of the tabris-js command line
tool's live-development support:

- the debug server, which issues session ids, accepts only the connection
  presenting the most recent id and closes a superseded live one with code 4900;
- the per-connection heartbeat, gated `send` and inbound frame dispatch;
- the event trace of a file download: progress, done or error;
- the reload watcher, which asks for `tabris.app.reload()` when a delivered file changes;
- the remote console's submit / wait / prompt state machine;
- the project and Tabris-version checks of the two `TabrisApp` variants.

Every component is an immutable record with pure step functions. Sockets,
timers, the file watcher, readline and the file system become explicit
events and inputs. What a component does to the outside world is returned as
an ordered trace of effects.

Modules, one per source file, plus shared helpers:

| module | file | models |
|---|---|---|
| `Wrappers` | wrappers.dfy | `Option`, `Result` (thrown errors) |
| `Decimal` | decimal.dfy | `Number#toString` for integers below 10^21 and reading it back |
| `DebugConnection` | debug_connection.dfy | src/helpers/DebugConnection.js |
| `DebugServer` | debug_server.dfy | src/services/DebugServer.js |
| `Download` | download.dfy | src/helpers/download.js |
| `Watcher` | watcher.dfy | src/services/Watcher.js |
| `RemoteConsole` | remote_console.dfy | src/services/RemoteConsoleUI.js |
| `TabrisVersions` | tabris_versions.dfy | versions, required ranges and messages shared by both `TabrisApp`s |
| `ServicesTabrisApp` | services_tabris_app.dfy | src/services/TabrisApp.js |
| `RootTabrisApp` | root_tabris_app.dfy | src/TabrisApp.js, and how it relates to the other variant |

Points where the code's behaviour is easy to misread; the model follows the code:

- A connection is accepted only when its id EQUALS the counter. The previous
  connection is closed only when it is alive and its own id differs from the counter.
- Ids are compared as decimal text (`id.toString() === sessionId.toString()`).
  So `"07"` is never accepted, and `"0"` is accepted before any id was issued.
- Only a pong makes a connection alive again. Inbound frames do not.
- `onConnect` fires on every `connect` frame, not once per session.
- `send` also refuses an empty command.
- `stop` on the watcher empties the watch set.
- The reload instruction the watcher sends is the string `tabris.app.reload()`.

## Model

| member | source | states |
|---|---|---|
| `Decimal.ParseNatToString` | src/services/DebugServer.js:52-54 | the decimal text that session ids are compared by reads back to the id |
| `Decimal.NatToStringInjective` | src/services/DebugServer.js:52-54 | two ids have equal texts iff they are equal, so the text comparison is an id comparison |
| `DebugConnection.New` | src/helpers/DebugConnection.js:8-21 | a new connection is alive, has device `{platform:'', model:''}`, has its heartbeat scheduled and has no callbacks |
| `DebugConnection.SendCommand` | src/helpers/DebugConnection.js:31-37 | `send` returns true iff the command is non-empty and the connection alive; it transmits exactly that command then and nothing otherwise |
| `DebugConnection.CloseWith` | src/helpers/DebugConnection.js:23-29 | `close(code)` stops the heartbeat and changes nothing else; its effects are the disconnect notification (exactly once if a callback is set, else none) followed only by the socket close with `code` |
| `DebugConnection.OnTick` | src/helpers/DebugConnection.js:85-99 | a tick on an alive connection makes it suspect and pings without disconnecting; on a suspect one it stops ticking, and its effects are the disconnect notification (once if a callback is set) followed only by a socket close without a code; a stopped heartbeat never ticks; device, callbacks, id and ping ability never change |
| `DebugConnection.Dispatch` | src/helpers/DebugConnection.js:63-83 | `connect` replaces the device and notifies `Connected` with the frame's parameter iff `onConnect` is set; `log` and `action-response` forward their parameter; other types and malformed frames change nothing; nothing but the device ever changes |
| `DebugConnection.Step` | src/helpers/DebugConnection.js:18-99 | alive afterwards iff the event was a pong or it was alive and no scheduled tick fired; only a tick or `close` stops the heartbeat or notifies a disconnect; the session id never changes; a pong only marks the connection alive, a send is exactly `send`, and registering only replaces the callbacks, all three changing nothing else |
| `DebugConnection.SilentPeerGivenUp` | src/helpers/DebugConnection.js:86-98 | with no pong, whatever frames and sends occur, two ticks stop the heartbeat and the disconnect callback fires exactly once (zero times without a callback or before enough ticks) |
| `DebugConnection.TwoTicksWithoutPongClose` | src/helpers/DebugConnection.js:86-97 | two consecutive ticks close the socket |
| `DebugConnection.SendGatedByHeartbeat` | src/helpers/DebugConnection.js:18-37 | between a tick and the next pong nothing can be sent; after a pong a command is sent iff it is non-empty |
| `DebugConnection.FramesKeepLiveness` | src/helpers/DebugConnection.js:63-83 | any run of inbound frames leaves alive, heartbeat and session id unchanged and only produces notifications |
| `DebugServer.NewSessionId` | src/services/DebugServer.js:38-40 | `getNewSessionId` returns a value above the old counter and makes it the counter, leaving the connection alone |
| `DebugServer.IssueIds` | src/services/DebugServer.js:38-40 | n successive calls return counter+1, …, counter+n |
| `DebugServer.IdsStartAtOneAndIncrease` | src/services/DebugServer.js:8-40 | from a fresh server (counter 0) the ids issued are 1, 2, 3, … and strictly increasing |
| `DebugServer.CloseOutdated` | src/services/DebugServer.js:46-58 | something is closed iff a stored connection is alive and its id is not the current one, and then the effects are exactly that connection's own `close(4900)` |
| `DebugServer.Accept` | src/services/DebugServer.js:15-22 | an id other than the counter's text leaves the server unchanged and closes nothing; the current id becomes the stored connection with that id, closing the previous one through `_clientOutdatedConnection` (its own `close(4900)`) iff it is alive with a different id; the invariant is kept |
| `DebugServer.AcceptClosesEarlierLiveSession` | src/services/DebugServer.js:46-54 | under the invariant, acceptance closes the previous connection iff it is alive and its id was issued strictly earlier |
| `DebugServer.SendCommand` | src/services/DebugServer.js:31-36 | `send` is false without a connection and otherwise exactly the connection's `send` result |
| `DebugServer.Stop` | src/services/DebugServer.js:26-29 | `stop` leaves the server as it was except that the stored connection is that connection after its own `close(1000)`, whose effects are exactly the result; it throws when there is none |
| `DebugServer.Step` | src/services/DebugServer.js:14-40 | no server event lowers the counter, and each keeps the invariant |
| `DebugServer.RunKeepsValid` | src/services/DebugServer.js:17-20 | over any run the stored connection's id is the text of an id not above the counter |
| `Download.HandleError` | src/helpers/download.js:37-39 | the given error is re-emitted; without one the message is 'Error downloading file' |
| `Download.StatusError` | src/helpers/download.js:15-19 | the status error carries `statusCode` equal to the status and a message 'Unexpected status code ' followed by text reading back to the status |
| `Download.StatusErrorExample` | test/download.test.js:48-55 | status 1234 gives the message 'Unexpected status code 1234' |
| `Download.ProgressEvents` | src/helpers/download.js:21-26 | one progress event per chunk, each carrying the content length as `total` |
| `Download.ProgressEventsAreRunningSums` | src/helpers/download.js:21-26 | the `i`-th progress event's `current` is the sum of the first `i + 1` chunk lengths |
| `Download.OpenErrors` | src/helpers/download.js:8-9 | the write stream contributes one error, the one it reports, exactly when it fails to open |
| `Download.ResponseTrace` | src/helpers/download.js:10-29 | request failure gives one error; a non-200 status gives exactly the status error; a 200 gives the progress events followed by the stream's error, or by `done` only when the write stream opened |
| `Download.Trace` | src/helpers/download.js:7-31 | the write stream's open error, if any, comes first, followed by what the request emits; both handlers apply on every path |
| `Download.ResponseOutcome` | src/helpers/download.js:10-35 | the request's events hold one `done` exactly when a 200 response completed into an open stream, and then it is last and no error occurs |
| `Download.TraceOutcome` | src/helpers/download.js:8-35 | `done` occurs at most once, iff the stream opened, the status is 200 and nothing failed, only as the last event and never with an error; a failed open is the first event |
| `Download.BadStatusGivesOnlyErrors` | src/helpers/download.js:8-19 | a bad status gives only errors, ending with the one carrying the status: two errors when the stream also failed to open, one otherwise |
| `Download.ProgressMonotone` | src/helpers/download.js:21-26 | progress `current` values never decrease and `total` is the same in every event |
| `Download.FinalProgressReachesTotal` | src/helpers/download.js:12-26 | when the content length equals the bytes delivered, the last progress event has `current == total` |
| `Download.FooBarExample` | test/download.test.js:70-89 | chunks "foo" and "bar" with length 6 give `{3,6}`, `{6,6}`, then `done` |
| `Watcher.Deliver` | src/services/Watcher.js:11-13 | a delivered url joins the watch set |
| `Watcher.Start` | src/services/Watcher.js:16-22 | `start` registers one more change handler and does not touch the watch set |
| `Watcher.Stop` | src/services/Watcher.js:25-27 | `stop` empties the watch set |
| `Watcher.OnChange` | src/services/Watcher.js:17-21 | without a stat nothing happens; with one, one `tabris.app.reload()` send recorded with the server's answer and socket effects, and the notice "<file>' changed, reloading app..." iff the send returned true |
| `Watcher.Handlers` | src/services/Watcher.js:16-22 | each registered handler sends one reload when the file still exists, none otherwise; every effect is one a single handler produces, and the notice appears once per handler iff the send succeeded |
| `Watcher.Change` | src/services/Watcher.js:17-21 | a change to an unwatched file or without a stat sends nothing; otherwise one reload per registered handler, every effect one a single handler produces, and one notice per handler iff the send succeeded |
| `Watcher.ChangeOfDeliveredFile` | src/services/Watcher.js:11-21 | after `start` and delivery, a change sends exactly one reload and logs the notice iff it was sent |
| `Watcher.WatchSetGrowsOnlyByDelivery` | src/services/Watcher.js:11-13 | without `stop`, the watch set is the initial one plus exactly the delivered urls |
| `Watcher.WatchSetWithinDelivered` | src/services/Watcher.js:11-27 | in every run, `stop` included, the watch set stays within the initial one plus the delivered urls |
| `Watcher.UndeliveredChangeSendsNothing` | test/Watcher.test.js:31-49 | in every run, a file never delivered produces no send |
| `RemoteConsole.New` | src/services/RemoteConsoleUI.js:18-32 | a new console is not waiting, with an empty line |
| `RemoteConsole.StripTrailingSemicolons` | src/services/RemoteConsoleUI.js:35 | the result is a prefix of the line, everything removed is a semicolon, and the result does not end in one |
| `RemoteConsole.StripIdempotent` | src/services/RemoteConsoleUI.js:35 | stripping twice is stripping once |
| `RemoteConsole.StripKeepsInteriorSemicolons` | src/services/RemoteConsoleUI.js:35 | a body not ending in `;` followed by any number of `;` strips to the body, interior semicolons kept |
| `RemoteConsole.ConsoleOutput` | src/services/RemoteConsoleUI.js:66-79 | wrapped output clears the line, prints, and re-prompts keeping the cursor iff not waiting; the re-prompt resumes input, so input stays paused only while waiting |
| `RemoteConsole.SubmitCommand` | src/services/RemoteConsoleUI.js:34-48 | an empty command changes nothing; `exit` exits; any other command is added to history; a successful send only sets the waiting flag and pauses input, keeping line and cursor, and its effects are exactly the connection's transmission of the command; a failed one adds to history and then does exactly what printing the no-device message through the console does, leaving `waiting` alone |
| `RemoteConsole.EvaluationCompleted` | src/services/RemoteConsoleUI.js:58-64 | only while waiting: stop waiting, empty the line, prompt without preserving the cursor, which goes to 0; otherwise no effect |
| `RemoteConsole.UpdateInput` | src/services/RemoteConsoleUI.js:50-56 | the line becomes the current history entry after moving, with the cursor at its end, and the prompt resumes input |
| `RemoteConsole.Keypress` | src/services/RemoteConsoleUI.js:25-29 | `up` moves back, `down` moves forward, any other key is ignored |
| `RemoteConsole.SubmitThenComplete` | src/services/RemoteConsoleUI.js:41-76 | after a successful submit, output does not prompt; the completion prompts once and a second completion does nothing |
| `RemoteConsole.EmptySubmissionIsIgnored` | src/services/RemoteConsoleUI.js:35-36 | a line of only semicolons changes nothing |
| `TabrisVersions.ParseRangeText` | src/services/TabrisApp.js:56 | the required range written into a message reads back to the same range |
| `ServicesTabrisApp.Create` | src/services/TabrisApp.js:18-29 | checks package.json, then `main`, then the cordova directory, throwing the first failing check's message as a bare string |
| `ServicesTabrisApp.CreateCordovaProject` | src/services/TabrisApp.js:41-47 | afterwards the installed version is the one found in the project |
| `ServicesTabrisApp.InstalledVersion` | src/services/TabrisApp.js:31-33 | before a Cordova project was created the installed version is `undefined`, afterwards the version found in it |
| `ServicesTabrisApp.CreatedCompatibleVersionPasses` | src/services/TabrisApp.js:41-58 | after `createCordovaProject`, validation passes iff the version found is valid and has the required major |
| `ServicesTabrisApp.RequiredRange` | src/services/TabrisApp.js:54-56 | the required range admits exactly the versions with the required major |
| `ServicesTabrisApp.ValidateInstalledTabrisVersion` | src/services/TabrisApp.js:49-60 | invalid versions throw an `Error` whose message is 'App uses invalid tabris version: ' + actual; a valid one passes iff its major matches; otherwise an `Error` whose message names the actual text and `M.x.x` |
| `ServicesTabrisApp.ValidateBeforeCreateFails` | src/services/TabrisApp.js:31-53 | validating before `createCordovaProject` throws an `Error` with message 'App uses invalid tabris version: undefined' |
| `ServicesTabrisApp.MismatchNamesRequiredRange` | src/services/TabrisApp.js:54-58 | the incompatibility message names a readable `M.x.x` range that the required version satisfies and the installed one does not |
| `ServicesTabrisApp.CopyCordovaFilter` | src/services/TabrisApp.js:62-69 | the copy filter rejects exactly the paths `cordova/www`, `cordova/platform` and `cordova/plugins` under the app (`copySync` then skips their contents too) |
| `ServicesTabrisApp.IgnorePatterns` | src/services/TabrisApp.js:75 | the destination's relative path, then the five default ignores |
| `RootTabrisApp.Create` | src/TabrisApp.js:10-18 | checks package.json, then the cordova directory, with no `main` check |
| `RootTabrisApp.RequiredRange` | src/TabrisApp.js:43-46 | the required range admits exactly the versions with the required major and minor |
| `RootTabrisApp.ValidateInstalledTabrisVersion` | src/TabrisApp.js:38-50 | invalid versions throw the same `Error`; a valid one passes iff major and minor match; otherwise the error names `M.m.x` |
| `RootTabrisApp.MismatchNamesRequiredRange` | src/TabrisApp.js:43-47 | the message's `M.m.x` reads back and excludes the installed version |
| `RootTabrisApp.CreatedCompatibleVersionPasses` | src/TabrisApp.js:30-47 | after `createCordovaProject`, validation passes iff the version found is valid and has the required major and minor |
| `RootTabrisApp.IgnorePatterns` | src/TabrisApp.js:60 | `.git/`, `node_modules/`, `cordova/`, the destination's relative path, `.tabrisignore` |
| `RootTabrisApp.StricterThanMajorOnly` | src/TabrisApp.js:43-44 | every version this variant accepts the major-only variant accepts, and the patch never matters |
| `RootTabrisApp.SameInvalidMessage` | src/TabrisApp.js:40-42 | both variants reject an invalid version identically |
| `RootTabrisApp.ConstructorsAgreeButForMain` | src/TabrisApp.js:10-18 | what this constructor rejects the other rejects too; the other accepts iff this one does and `main` is set |
| `RootTabrisApp.IgnoreSetsDifferByBuild` | src/TabrisApp.js:60 | the two ignore lists hold the same patterns except `build/` |

## Left out

- Transport: WebSocket and HTTP objects and URL query parsing. The model receives the query's `id` value as a string.
- A connection without an `id` query value is left out. In the source, `id.toString()` throws inside the connection listener.
- Connections the server replaces without closing them are not tracked. Their own heartbeat continues, as `DebugConnection` models.
- Real timers are left out. The heartbeat interval (500 ms under test, 5000 ms otherwise) and the file watcher's 1000 ms debounce become explicit tick and change events. The debounce lives in the file-watcher library, which is not part of this model.
- The https request, the write stream, piping, `parseInt` of the content length and the archive contents are abstracted to a `Transfer` record.
- `downloadFile` returning the downloader itself (for chaining) is not modelled.
- An error after the chunks is modelled only as the last event, because the interleaving of stream errors with data is decided by Node's streams.
- Download.Trace: the write stream's open error is placed before everything the request emits, on every path. In the source its order relative to the response is decided by Node's I/O scheduling. After a failed open the model emits no `done`, because `finish` never comes from a stream that did not open; further errors of the broken pipe are not modelled.
- DebugServer.NewSessionId: the counter is an unbounded natural. In the source it is a JavaScript Number, which stops increasing at 2^53, and its `toString()` switches to exponent form at 10^21; neither bound is modelled, since no session reaches them.
- Who raises the `Register` and evaluation-completed events is left out. The DebugServer.js shown builds every `DebugConnection` without callbacks. DebugConnection.js stores `onEvaluationCompleted` but never calls it. The server offers no `onEvaluationCompleted` for RemoteConsoleUI.js to attach to. The model takes both as events from code that is not part of this model.
- `CLIHistory` is not part of this model. It stands as a sequence with a cursor that saturates at both ends; persistence to `cli_history.log` is left out.
- `process.exit` on `exit` and on close is left out. Chalk colouring, the VT100 line-clear bytes and readline internals are left out too; the model assumes `prompt()` resumes paused input.
- semver parsing is abstracted. The installed version arrives with its text and, when semver accepts it, its parsed triple. The required version is a valid triple.
- Reading package.json (and its parse errors), `copySync`, `path.join` normalisation, `path.relative`, the `ignore` library's glob matching, the trailing-slash rule in `_copyJsFiles`, `.tabrisignore` contents and npm `exec`/`execSync` (`runPackageJsonBuildScripts`, `_installProductionDependencies`) are left out.
- The artifact provider (PlatformProvider), Server and Terminal sources are not part of this model.

=== FILE: debug_connection.dfy ===
/**
  One debug connection to a device: heartbeat liveness, gated sending,
  dispatch of inbound frames and explicit closing (src/helpers/DebugConnection.js).

  The socket and the interval timer are not modelled as objects: every
  interaction is an explicit `Event`, and what the connection does to the
  outside world (pings, transmissions, callbacks, socket closes) is returned
  as a sequence of `Effect`s, in the order the source performs them.
 */
module DebugConnection {
  import opened Wrappers

  const TypeConnect := "connect"
  const TypeLog := "log"
  const TypeActionResponse := "action-response"

  /** A frame's `parameter`: a device descriptor, any other JSON value, or absent. */
  datatype Value = Undefined | DeviceInfo(platform: string, model: string) | Data(json: string)

  const NoDevice: Value := DeviceInfo("", "")

  /**
    An inbound frame. `Malformed` stands for every frame on which the handler
    throws before dispatching (text that is not JSON, or JSON `null`); `Frame`
    is a parsed value with its `type` (absent `type` is a kind no branch matches).
   */
  datatype Message = Malformed | Frame(kind: string, parameter: Value)

  /** Which of the optional callbacks `onConnect`, `onDisconnect`, `onLog`, `onActionResponse` are set. */
  datatype Handlers = Handlers(onConnect: bool, onDisconnect: bool, onLog: bool, onActionResponse: bool)

  const NoHandlers := Handlers(false, false, false, false)

  /**
    `checking` is true while the state-check interval is scheduled;
    `canPing` is whether the socket offers `ping`.
   */
  datatype Connection = Connection(
    sessionId: string,
    device: Value,
    alive: bool,
    checking: bool,
    handlers: Handlers,
    canPing: bool)

  datatype Effect =
    | Ping
    | Transmit(command: string)
    | Connected(device: Value)
    | Disconnected
    | Logged(parameter: Value)
    | ActionResponded(parameter: Value)
    /** `webSocket.close(code)`; `None` is a close without a code. */
    | SocketClosed(code: Option<nat>)

  datatype Event =
    | Pong
    | Tick
    | Receive(message: Message)
    | Send(command: string)
    | Close(code: nat)
    | Register(handlers: Handlers)

  datatype Outcome = Outcome(conn: Connection, effects: seq<Effect>)

  datatype SendResult = SendResult(ok: bool, effects: seq<Effect>)

  /** Number of `Disconnected` notifications among `effects`. */
  function Disconnects(effects: seq<Effect>): nat {
    multiset(effects)[Disconnected]
  }

  /** The constructor: alive, no device yet, heartbeat scheduled, no callbacks set. */
  function New(sessionId: string, canPing: bool): (c: Connection)
    ensures c.sessionId == sessionId && c.canPing == canPing
    ensures c.alive && c.checking
    ensures c.device.DeviceInfo? && c.device.platform == "" && c.device.model == ""
    ensures c.handlers == NoHandlers
  {
    Connection(sessionId, NoDevice, true, true, NoHandlers, canPing)
  }

  /** `send(command)`: transmits only a non-empty command on a live connection. */
  function SendCommand(c: Connection, command: string): (r: SendResult)
    ensures r.ok <==> command != "" && c.alive
    ensures r.ok ==> r.effects == [Transmit(command)]
    ensures !r.ok ==> r.effects == []
  {
    if command != "" && c.alive then SendResult(true, [Transmit(command)]) else SendResult(false, [])
  }

  /** `close(code)`: stop the heartbeat, notify the disconnect callback, then close the socket with `code`. */
  function CloseWith(c: Connection, code: nat): (o: Outcome)
    ensures !o.conn.checking
    ensures o.conn.alive == c.alive && o.conn.sessionId == c.sessionId && o.conn.handlers == c.handlers
    ensures o.conn.device == c.device && o.conn.canPing == c.canPing
    ensures |o.effects| > 0 && o.effects[|o.effects| - 1] == SocketClosed(Some(code))
    ensures forall k :: 0 <= k < |o.effects| - 1 ==> o.effects[k] == Disconnected
    ensures Disconnects(o.effects) == (if c.handlers.onDisconnect then 1 else 0)
    ensures Disconnected in o.effects ==> o.effects[0] == Disconnected
  {
    var notify := if c.handlers.onDisconnect then [Disconnected] else [];
    Outcome(c.(checking := false), notify + [SocketClosed(Some(code))])
  }

  /**
    One firing of the state-check interval. A live connection becomes suspect
    and is pinged; a suspect one is given up: disconnect callback, interval
    cleared, socket closed without a code. A cleared interval never fires.
   */
  function OnTick(c: Connection): (o: Outcome)
    ensures o.conn.sessionId == c.sessionId && o.conn.handlers == c.handlers && o.conn.device == c.device
    ensures o.conn.canPing == c.canPing
    ensures !c.checking ==> o == Outcome(c, [])
    ensures c.checking && c.alive ==>
      !o.conn.alive && o.conn.checking && Disconnects(o.effects) == 0 && o.effects == (if c.canPing then [Ping] else [])
    ensures c.checking && !c.alive ==>
      && !o.conn.alive && !o.conn.checking
      && Disconnects(o.effects) == (if c.handlers.onDisconnect then 1 else 0)
      && |o.effects| > 0 && o.effects[|o.effects| - 1] == SocketClosed(None)
      && (forall k :: 0 <= k < |o.effects| - 1 ==> o.effects[k] == Disconnected)
  {
    if !c.checking then
      Outcome(c, [])
    else if !c.alive then
      var notify := if c.handlers.onDisconnect then [Disconnected] else [];
      Outcome(c.(checking := false), notify + [SocketClosed(None)])
    else
      Outcome(c.(alive := false), if c.canPing then [Ping] else [])
  }

  /**
    The message handler: `connect` records the device and notifies, `log` and
    `action-response` forward their parameter, any other type is ignored and a
    malformed frame is swallowed.
   */
  function Dispatch(c: Connection, m: Message): (o: Outcome)
    ensures o.conn.alive == c.alive && o.conn.checking == c.checking
    ensures o.conn.sessionId == c.sessionId && o.conn.handlers == c.handlers
    ensures Disconnects(o.effects) == 0 && |o.effects| <= 1
    ensures o.conn.device != c.device ==> m.Frame? && m.kind == TypeConnect
    ensures o.conn == c.(device := o.conn.device)
    ensures m.Frame? && m.kind == TypeConnect ==>
      o.conn.device == m.parameter && o.effects == (if c.handlers.onConnect then [Connected(m.parameter)] else [])
    ensures m.Frame? && m.kind == TypeLog ==>
      o.effects == (if c.handlers.onLog then [Logged(m.parameter)] else [])
    ensures m.Frame? && m.kind == TypeActionResponse ==>
      o.effects == (if c.handlers.onActionResponse then [ActionResponded(m.parameter)] else [])
    ensures m.Malformed? || m.kind !in {TypeConnect, TypeLog, TypeActionResponse} ==> o == Outcome(c, [])
  {
    match m
    case Malformed => Outcome(c, [])
    case Frame(kind, parameter) =>
      if kind == TypeConnect then
        var c' := c.(device := parameter);
        Outcome(c', if c.handlers.onConnect then [Connected(parameter)] else [])
      else if kind == TypeLog then
        Outcome(c, if c.handlers.onLog then [Logged(parameter)] else [])
      else if kind == TypeActionResponse then
        Outcome(c, if c.handlers.onActionResponse then [ActionResponded(parameter)] else [])
      else
        Outcome(c, [])
  }

  /**
    One event. Only a pong makes the connection alive and only a scheduled tick
    makes it not alive; only a tick or `close` can stop the heartbeat or notify
    a disconnect; the session id never changes.
   */
  function Step(c: Connection, e: Event): (o: Outcome)
    ensures o.conn.sessionId == c.sessionId
    ensures o.conn.alive <==> e.Pong? || (c.alive && !(e.Tick? && c.checking))
    ensures o.conn.checking <==> c.checking && !e.Close? && !(e.Tick? && !c.alive)
    ensures !e.Register? ==> o.conn.handlers == c.handlers
    ensures Disconnects(o.effects) > 0 ==> e.Close? || (e.Tick? && c.checking && !c.alive)
    ensures e.Pong? ==> o == Outcome(c.(alive := true), [])
    ensures e.Send? ==> o == Outcome(c, SendCommand(c, e.command).effects)
    ensures e.Register? ==> o == Outcome(c.(handlers := e.handlers), [])
  {
    match e
    case Pong => Outcome(c.(alive := true), [])
    case Tick => OnTick(c)
    case Receive(m) => Dispatch(c, m)
    case Send(command) => Outcome(c, SendCommand(c, command).effects)
    case Close(code) => CloseWith(c, code)
    case Register(h) => Outcome(c.(handlers := h), [])
  }

  /** A run of events, effects concatenated in order. */
  function Run(c: Connection, events: seq<Event>): (o: Outcome)
    decreases |events|
  {
    if events == [] then Outcome(c, [])
    else
      var first := Step(c, events[0]);
      var rest := Run(first.conn, events[1..]);
      Outcome(rest.conn, first.effects + rest.effects)
  }

  /** Events that neither answer the heartbeat, close, nor change the callbacks. */
  predicate Silent(events: seq<Event>) {
    forall i :: 0 <= i < |events| ==> !events[i].Pong? && !events[i].Close? && !events[i].Register?
  }

  function Ticks(events: seq<Event>): nat {
    if events == [] then 0 else (if events[0].Tick? then 1 else 0) + Ticks(events[1..])
  }

  /** Ticks a silent peer survives: two while alive, one once suspect, none once given up. */
  function TicksToGiveUp(c: Connection): nat {
    if !c.checking then 0 else if c.alive then 2 else 1
  }

  /**
    A peer that never answers is given up after at most two ticks, and the
    disconnect callback fires exactly once for it (if set), whatever frames or
    sends happen in between.
   */
  lemma {:induction false} SilentPeerGivenUp(c: Connection, events: seq<Event>)
    requires Silent(events)
    ensures Ticks(events) >= TicksToGiveUp(c) ==> !Run(c, events).conn.checking
    ensures Disconnects(Run(c, events).effects) ==
      (if c.checking && c.handlers.onDisconnect && Ticks(events) >= TicksToGiveUp(c) then 1 else 0)
    decreases |events|
  {
    if events != [] {
      var first := Step(c, events[0]);
      assert Silent(events[1..]) by {
        forall i | 0 <= i < |events[1..]|
          ensures !events[1..][i].Pong? && !events[1..][i].Close? && !events[1..][i].Register?
        {
          assert events[1..][i] == events[i + 1];
        }
      }
      SilentPeerGivenUp(first.conn, events[1..]);
      var rest := Run(first.conn, events[1..]);
      assert multiset(first.effects + rest.effects) == multiset(first.effects) + multiset(rest.effects);
    }
  }

  /** Two ticks with no pong between them close the connection. */
  lemma TwoTicksWithoutPongClose(c: Connection)
    requires c.checking
    ensures var o := Run(c, [Tick, Tick]);
      !o.conn.checking && SocketClosed(None) in o.effects
  {
    var first := Step(c, Tick);
    var second := Step(first.conn, Tick);
    assert Run(c, [Tick, Tick]).effects == first.effects + second.effects + [];
  }

  /** Between a tick and the next pong nothing can be sent; after a pong any non-empty command goes out. */
  lemma SendGatedByHeartbeat(c: Connection, command: string)
    ensures c.checking ==> !SendCommand(Step(c, Tick).conn, command).ok
    ensures SendCommand(Step(c, Pong).conn, command).ok <==> command != ""
  {
  }

  /** Effects that are only callback notifications. */
  predicate OnlyNotifications(effects: seq<Effect>) {
    forall k :: 0 <= k < |effects| ==> effects[k].Connected? || effects[k].Logged? || effects[k].ActionResponded?
  }

  lemma NotificationsAppend(a: seq<Effect>, b: seq<Effect>)
    requires OnlyNotifications(a) && OnlyNotifications(b)
    ensures OnlyNotifications(a + b)
  {
  }

  /** Inbound frames never change liveness, the heartbeat or the session, and never ping, send or close. */
  lemma {:induction false} FramesKeepLiveness(c: Connection, messages: seq<Message>)
    ensures var o := Run(c, seq(|messages|, i requires 0 <= i < |messages| => Receive(messages[i])));
      && o.conn.alive == c.alive && o.conn.checking == c.checking && o.conn.sessionId == c.sessionId
      && OnlyNotifications(o.effects)
    decreases |messages|
  {
    var events := seq(|messages|, i requires 0 <= i < |messages| => Receive(messages[i]));
    if messages != [] {
      var tail := seq(|messages[1..]|, i requires 0 <= i < |messages[1..]| => Receive(messages[1..][i]));
      assert events[1..] == tail;
      var first := Dispatch(c, messages[0]);
      assert events[0] == Receive(messages[0]);
      FramesKeepLiveness(first.conn, messages[1..]);
      assert OnlyNotifications(first.effects);
      var rest := Run(first.conn, tail);
      NotificationsAppend(first.effects, rest.effects);
      assert Run(c, events) == Outcome(rest.conn, first.effects + rest.effects);
    }
  }
}

=== FILE: debug_server.dfy ===
/**
  Arbitration between debug connections (src/services/DebugServer.js): a
  session-id counter, acceptance of only the connection that presents the most
  recently issued id, closure of a superseded live connection, and delegation
  of `send` to the stored connection.
 */
module DebugServer {
  import opened Wrappers
  import opened Decimal
  import DC = DebugConnection

  /** Close code for a connection superseded by a newer session. */
  const OutdatedConnectionClosure: nat := 4900
  /** Close code used by `stop`. */
  const NormalClosure: nat := 1000

  /** `sessionId` is the last issued id; `connection` the stored connection, if any. */
  datatype Server = Server(sessionId: nat, connection: Option<DC.Connection>)

  const Initial := Server(0, None)

  datatype Outcome = Outcome(server: Server, effects: seq<DC.Effect>)

  datatype StopError = NoConnection

  /** The stored connection, if any, carries a session id issued no later than the counter. */
  ghost predicate Valid(s: Server) {
    s.connection.Some? ==> exists k: nat :: k <= s.sessionId && NatToString(k) == s.connection.value.sessionId
  }

  /** `getNewSessionId`: increment the counter and hand out the new value. */
  function NewSessionId(s: Server): (r: (Server, nat))
    ensures r.1 > s.sessionId && r.0.sessionId == r.1
    ensures r.0.connection == s.connection
    ensures Valid(s) ==> Valid(r.0)
  {
    var id := s.sessionId + 1;
    (s.(sessionId := id), id)
  }

  /** `n` calls of `getNewSessionId` in a row: the ids handed out, in order. */
  function IssueIds(s: Server, n: nat): (r: (Server, seq<nat>))
    ensures |r.1| == n
    ensures forall i :: 0 <= i < n ==> r.1[i] == s.sessionId + i + 1
    ensures r.0.sessionId == s.sessionId + n && r.0.connection == s.connection
    decreases n
  {
    if n == 0 then (s, [])
    else
      var (s1, id) := NewSessionId(s);
      var (s2, ids) := IssueIds(s1, n - 1);
      (s2, [id] + ids)
  }

  /** From a fresh server the ids handed out are 1, 2, 3, …, strictly increasing. */
  lemma IdsStartAtOneAndIncrease(n: nat)
    ensures var ids := IssueIds(Initial, n).1;
      && (forall i :: 0 <= i < n ==> ids[i] == i + 1)
      && (forall i, j :: 0 <= i < j < n ==> ids[i] < ids[j])
  {
  }

  /** `_isMostRecentSession`: ids are compared as their decimal text. */
  predicate IsMostRecentSession(s: Server, id: string) {
    id == NatToString(s.sessionId)
  }

  /** `_isConnectionAlive`. */
  predicate IsConnectionAlive(s: Server) {
    s.connection.Some? && s.connection.value.alive
  }

  /** `_clientOutdatedConnection`: close a live stored connection whose id is not the current one. */
  function CloseOutdated(s: Server): (effects: seq<DC.Effect>)
    ensures effects != [] <==>
      IsConnectionAlive(s) && !IsMostRecentSession(s, s.connection.value.sessionId)
    ensures effects != [] ==> effects[|effects| - 1] == DC.SocketClosed(Some(OutdatedConnectionClosure))
    ensures effects != [] ==> effects == DC.CloseWith(s.connection.value, OutdatedConnectionClosure).effects
  {
    if IsConnectionAlive(s) && !IsMostRecentSession(s, s.connection.value.sessionId) then
      DC.CloseWith(s.connection.value, OutdatedConnectionClosure).effects
    else
      []
  }

  /**
    The `connection` handler for a socket presenting the query value `id`.
    Anything but the current id is ignored; the current id replaces the stored
    connection with a new one for that id, after closing the previous one as
    outdated when it is live and belongs to another session.
   */
  function Accept(s: Server, id: string, canPing: bool): (o: Outcome)
    ensures !IsMostRecentSession(s, id) ==> o == Outcome(s, [])
    ensures IsMostRecentSession(s, id) ==>
      && o.server.sessionId == s.sessionId
      && o.server.connection == Some(DC.New(id, canPing))
      && (o.effects != [] <==> IsConnectionAlive(s) && s.connection.value.sessionId != id)
      && o.effects == CloseOutdated(s)
    ensures o.effects != [] ==> o.effects[|o.effects| - 1] == DC.SocketClosed(Some(OutdatedConnectionClosure))
    ensures Valid(s) ==> Valid(o.server)
  {
    if IsMostRecentSession(s, id) then
      var closing := CloseOutdated(s);
      Outcome(s.(connection := Some(DC.New(id, canPing))), closing)
    else
      Outcome(s, [])
  }

  /**
    With the invariant, "belongs to another session" means "was issued
    earlier": an accept closes the previous connection exactly when it is live
    and its id was handed out before the current one.
   */
  lemma AcceptClosesEarlierLiveSession(s: Server, canPing: bool)
    requires Valid(s) && s.connection.Some?
    ensures Accept(s, NatToString(s.sessionId), canPing).effects != [] <==>
      s.connection.value.alive &&
      exists k: nat :: k < s.sessionId && NatToString(k) == s.connection.value.sessionId
  {
    var k: nat :| k <= s.sessionId && NatToString(k) == s.connection.value.sessionId;
    NatToStringInjective(k, s.sessionId);
    if s.connection.value.alive && k != s.sessionId {
      assert k < s.sessionId && NatToString(k) == s.connection.value.sessionId;
    }
    forall j: nat | j < s.sessionId && NatToString(j) == s.connection.value.sessionId
      ensures s.connection.value.sessionId != NatToString(s.sessionId)
    {
      NatToStringInjective(j, s.sessionId);
    }
  }

  /** `send`: false without a stored connection, otherwise whatever the connection's `send` answers. */
  function SendCommand(s: Server, command: string): (r: DC.SendResult)
    ensures s.connection.None? ==> r == DC.SendResult(false, [])
    ensures s.connection.Some? ==> r == DC.SendCommand(s.connection.value, command)
    ensures r.ok <==> IsConnectionAlive(s) && command != ""
  {
    match s.connection
    case None => DC.SendResult(false, [])
    case Some(c) => DC.SendCommand(c, command)
  }

  /** `stop`: close the stored connection with the normal code; with none stored it throws. */
  function Stop(s: Server): (r: Result<Outcome, StopError>)
    ensures r.Failure? <==> s.connection.None?
    ensures r.Success? ==>
      && r.value.server.connection.Some?
      && !r.value.server.connection.value.checking
      && r.value.server.sessionId == s.sessionId
      && |r.value.effects| > 0 && r.value.effects[|r.value.effects| - 1] == DC.SocketClosed(Some(NormalClosure))
      && r.value.server.connection.value.sessionId == s.connection.value.sessionId
      && r.value.server.connection.value.alive == s.connection.value.alive
      && r.value.effects == DC.CloseWith(s.connection.value, NormalClosure).effects
    ensures r.Success? ==> r.value.server == s.(connection := Some(DC.CloseWith(s.connection.value, NormalClosure).conn))
  {
    match s.connection
    case None => Failure(NoConnection)
    case Some(c) =>
      var closed := DC.CloseWith(c, NormalClosure);
      Success(Outcome(s.(connection := Some(closed.conn)), closed.effects))
  }

  /** What the server sees: an id request, a socket arriving, a send, or an event on the stored connection. */
  datatype Event =
    | RequestId
    | Incoming(id: string, canPing: bool)
    | Send(command: string)
    | OnConnection(e: DC.Event)

  function Step(s: Server, e: Event): (o: Outcome)
    ensures o.server.sessionId >= s.sessionId
    ensures Valid(s) ==> Valid(o.server)
  {
    match e
    case RequestId => Outcome(NewSessionId(s).0, [])
    case Incoming(id, canPing) => Accept(s, id, canPing)
    case Send(command) => Outcome(s, SendCommand(s, command).effects)
    case OnConnection(ce) =>
      match s.connection
      case None => Outcome(s, [])
      case Some(c) =>
        var o := DC.Step(c, ce);
        Outcome(s.(connection := Some(o.conn)), o.effects)
  }

  function Run(s: Server, events: seq<Event>): (o: Outcome)
    decreases |events|
  {
    if events == [] then Outcome(s, [])
    else
      var first := Step(s, events[0]);
      var rest := Run(first.server, events[1..]);
      Outcome(rest.server, first.effects + rest.effects)
  }

  /**
    Over any run from a fresh server the counter never decreases and the
    stored connection's id is always one already issued, never ahead of the counter.
   */
  lemma {:induction false} RunKeepsValid(s: Server, events: seq<Event>)
    requires Valid(s) || s == Initial
    ensures Valid(Run(s, events).server)
    ensures Run(s, events).server.sessionId >= s.sessionId
    decreases |events|
  {
    if events != [] {
      RunKeepsValid(Step(s, events[0]).server, events[1..]);
    }
  }
}

=== FILE: decimal.dfy ===
/**
  Decimal text of natural numbers, as JavaScript's `Number.prototype.toString()`
  writes integers below 10^21 (larger ones it writes in exponent form), and
  the reverse reading. Session ids, status codes and version numbers reach
  strings through `NatToString`.
 */
module Decimal {
  import opened Wrappers

  predicate IsDigit(c: char) {
    '0' <= c <= '9'
  }

  predicate AllDigits(s: string) {
    forall i :: 0 <= i < |s| ==> IsDigit(s[i])
  }

  function DigitChar(d: nat): (c: char)
    requires d < 10
    ensures IsDigit(c)
  {
    ('0' as int + d) as char
  }

  function DigitValue(c: char): (d: nat)
    requires IsDigit(c)
    ensures d < 10
    ensures DigitChar(d) == c
  {
    c as int - '0' as int
  }

  /** The shortest decimal numeral of `n`: digits only, no leading zero. */
  function NatToString(n: nat): (s: string)
    ensures |s| > 0 && AllDigits(s)
    ensures s[0] == '0' <==> n == 0
    ensures n == 0 ==> s == "0"
    decreases n
  {
    if n < 10 then [DigitChar(n)] else NatToString(n / 10) + [DigitChar(n % 10)]
  }

  /** Value of a digit string, most significant digit first. */
  function DigitsValue(s: string): nat
    requires AllDigits(s)
  {
    if |s| == 0 then 0 else DigitsValue(s[..|s| - 1]) * 10 + DigitValue(s[|s| - 1])
  }

  /** Reads a non-empty string of decimal digits; anything else is rejected. */
  function ParseDecimal(s: string): (r: Option<nat>)
    ensures r.Some? <==> |s| > 0 && AllDigits(s)
  {
    if |s| > 0 && AllDigits(s) then Some(DigitsValue(s)) else None
  }

  /** Reading back the text of `n` gives `n`. */
  lemma {:induction false} ParseNatToString(n: nat)
    ensures ParseDecimal(NatToString(n)) == Some(n)
    decreases n
  {
    var s := NatToString(n);
    if n >= 10 {
      ParseNatToString(n / 10);
      assert s[..|s| - 1] == NatToString(n / 10);
      assert DigitValue(s[|s| - 1]) == n % 10;
    } else {
      assert s == [DigitChar(n)];
      assert s[..0] == [];
      assert DigitsValue(s) == DigitValue(s[0]);
    }
  }

  /** Distinct numbers have distinct texts, so comparing texts compares numbers. */
  lemma NatToStringInjective(a: nat, b: nat)
    ensures NatToString(a) == NatToString(b) <==> a == b
  {
    ParseNatToString(a);
    ParseNatToString(b);
  }
}

=== FILE: download.dfy ===
/**
  The events `FileDownloader.downloadFile` emits for one download
  (src/helpers/download.js), as a function of what the transport does.

  The https request, the write stream and piping are abstracted into a
  `Transfer`: whether the write stream fails to open, and either a request
  that fails before any response, or a response with a status, a parsed
  content length, the lengths of the data chunks delivered, and optionally a
  response or write-stream error after them.
 */
module Download {
  import opened Wrappers
  import opened Decimal

  const DefaultErrorMessage := "Error downloading file"
  const UnexpectedStatusPrefix := "Unexpected status code "
  const StatusOk: nat := 200

  /** An emitted error: its message and, for a bad status, its `statusCode` field. */
  datatype DownloadError = DownloadError(message: string, statusCode: Option<nat>)

  /** An error event after the delivered chunks, carrying the error value if the emitter gave one. */
  datatype StreamFailure = ResponseFailed(error: Option<DownloadError>) | WriteFailed(error: Option<DownloadError>)

  /** What the https request does. */
  datatype Response =
    | RequestFailed(error: Option<DownloadError>)
    /** `contentLength` is `parseInt` of the header; `None` is `NaN`. */
    | Responded(status: nat, contentLength: Option<int>, chunks: seq<nat>, failure: Option<StreamFailure>)

  /**
    One download: whether the write stream fails to open (a destination in a
    missing directory, say), with the error it reports, and what the request does.
   */
  datatype Transfer = Transfer(openFailure: Option<Option<DownloadError>>, response: Response)

  datatype Event = Progress(current: nat, total: Option<int>) | Done | Error(error: DownloadError)

  /** Bytes in a run of chunks. */
  function Sum(chunks: seq<nat>): nat {
    if chunks == [] then 0 else chunks[0] + Sum(chunks[1..])
  }

  /** `_handleError(e)`: the given error, or the default one when none was given. */
  function HandleError(e: Option<DownloadError>): (r: DownloadError)
    ensures e.Some? ==> r == e.value
    ensures e.None? ==> r.message == DefaultErrorMessage && r.statusCode.None?
  {
    e.GetOr(DownloadError(DefaultErrorMessage, None))
  }

  /** The error for an unexpected status: the status is both in the message and in `statusCode`. */
  function StatusError(status: nat): (r: DownloadError)
    ensures r.statusCode == Some(status)
    ensures |r.message| > |UnexpectedStatusPrefix|
    ensures r.message[..|UnexpectedStatusPrefix|] == UnexpectedStatusPrefix
    ensures ParseDecimal(r.message[|UnexpectedStatusPrefix|..]) == Some(status)
  {
    var text := NatToString(status);
    var message := UnexpectedStatusPrefix + text;
    assert message[|UnexpectedStatusPrefix|..] == text;
    ParseNatToString(status);
    DownloadError(message, Some(status))
  }

  lemma StatusErrorExample()
    ensures StatusError(1234).message == "Unexpected status code 1234"
  {
    assert NatToString(1234) == "1234";
  }

  lemma {:induction false} SumAppend(chunks: seq<nat>, i: nat)
    requires i < |chunks|
    ensures Sum(chunks[..i + 1]) == Sum(chunks[..i]) + chunks[i]
    decreases i
  {
    if i == 0 {
      assert chunks[..1][1..] == [];
    } else {
      SumAppend(chunks[1..], i - 1);
      assert chunks[..i + 1][1..] == chunks[1..][..i];
      assert chunks[..i][1..] == chunks[1..][..i - 1];
    }
  }

  /**
    The `data` handler over the remaining chunks: each chunk adds its length
    to the running count and emits it with the total.
   */
  function ProgressEvents(chunks: seq<nat>, downloaded: nat, total: Option<int>): (r: seq<Event>)
    ensures |r| == |chunks|
    ensures forall i :: 0 <= i < |r| ==> r[i].Progress? && r[i].total == total
    decreases |chunks|
  {
    if chunks == [] then []
    else
      var now := downloaded + chunks[0];
      [Progress(now, total)] + ProgressEvents(chunks[1..], now, total)
  }

  /** The `i`-th progress event reports the bytes of the first `i + 1` chunks on top of what was downloaded. */
  lemma {:induction false} ProgressEventsAreRunningSums(chunks: seq<nat>, downloaded: nat, total: Option<int>)
    ensures forall i :: 0 <= i < |chunks| ==>
      ProgressEvents(chunks, downloaded, total)[i] == Progress(downloaded + Sum(chunks[..i + 1]), total)
    decreases |chunks|
  {
    if chunks != [] {
      var now := downloaded + chunks[0];
      ProgressEventsAreRunningSums(chunks[1..], now, total);
      var r := ProgressEvents(chunks, downloaded, total);
      forall i | 0 <= i < |chunks|
        ensures r[i] == Progress(downloaded + Sum(chunks[..i + 1]), total)
      {
        assert chunks[..i + 1][1..] == chunks[1..][..i];
        if i > 0 {
          assert r[i] == ProgressEvents(chunks[1..], now, total)[i - 1];
        }
      }
    }
  }

  /** The error the write stream reports when it cannot be opened, if it cannot. */
  function OpenErrors(t: Transfer): (r: seq<Event>)
    ensures |r| <= 1 && (|r| == 1 <==> t.openFailure.Some?)
    ensures t.openFailure.Some? ==> r == [Error(HandleError(t.openFailure.value))]
  {
    match t.openFailure
    case None => []
    case Some(e) => [Error(HandleError(e))]
  }

  /**
    What the request contributes. `finish` only comes from a stream that
    opened, so without one a complete transfer emits no `done`.
   */
  function ResponseTrace(response: Response, writable: bool): (r: seq<Event>)
    ensures response.RequestFailed? ==> r == [Error(HandleError(response.error))]
    ensures response.Responded? && response.status != StatusOk ==> r == [Error(StatusError(response.status))]
    ensures response.Responded? && response.status == StatusOk ==>
      && |response.chunks| <= |r|
      && r[..|response.chunks|] == ProgressEvents(response.chunks, 0, response.contentLength)
      && (response.failure.Some? ==>
            r[|response.chunks|..] == [Error(HandleError(response.failure.value.error))])
      && (response.failure.None? && writable ==> r[|response.chunks|..] == [Done])
      && (response.failure.None? && !writable ==> |r| == |response.chunks|)
  {
    match response
    case RequestFailed(e) => [Error(HandleError(e))]
    case Responded(status, contentLength, chunks, failure) =>
      if status != StatusOk then
        [Error(StatusError(status))]
      else
        var progress := ProgressEvents(chunks, 0, contentLength);
        var last := match failure
          case None => if writable then [Done] else []
          case Some(ResponseFailed(e)) => [Error(HandleError(e))]
          case Some(WriteFailed(e)) => [Error(HandleError(e))];
        assert (progress + last)[..|chunks|] == progress;
        assert (progress + last)[|chunks|..] == last;
        progress + last
  }

  /**
    Everything `downloadFile` emits for one transfer, in order: the write
    stream's open error, if any, then what the request brings. Both handlers
    are registered on every path, so a bad status after a failed open gives
    two errors.
   */
  function Trace(t: Transfer): (r: seq<Event>)
    ensures var k := |OpenErrors(t)|;
      && k <= |r| && r[..k] == OpenErrors(t)
      && r[k..] == ResponseTrace(t.response, t.openFailure.None?)
  {
    var opening := OpenErrors(t);
    var rest := ResponseTrace(t.response, t.openFailure.None?);
    assert (opening + rest)[..|opening|] == opening;
    assert (opening + rest)[|opening|..] == rest;
    opening + rest
  }

  /** How many `done` events a trace has. */
  function DoneCount(events: seq<Event>): nat {
    multiset(events)[Done]
  }

  /** No progress event is `done`. */
  lemma NoDoneInProgress(chunks: seq<nat>, downloaded: nat, total: Option<int>)
    ensures Done !in multiset(ProgressEvents(chunks, downloaded, total))
  {
    var progress := ProgressEvents(chunks, downloaded, total);
    forall i | 0 <= i < |progress|
      ensures progress[i] != Done
    {
    }
  }

  /** The request's part of a trace has a `done` exactly when a 200 response completed into an open stream. */
  lemma ResponseOutcome(response: Response, writable: bool)
    ensures var r := ResponseTrace(response, writable);
      && DoneCount(r) ==
           (if response.Responded? && response.status == StatusOk && response.failure.None? && writable then 1 else 0)
      && (DoneCount(r) == 1 ==> r[|r| - 1] == Done && forall i :: 0 <= i < |r| ==> !r[i].Error?)
  {
    var r := ResponseTrace(response, writable);
    if response.Responded? && response.status == StatusOk {
      var chunks := response.chunks;
      var progress := ProgressEvents(chunks, 0, response.contentLength);
      NoDoneInProgress(chunks, 0, response.contentLength);
      var tail := r[|chunks|..];
      assert r == progress + tail by {
        assert r == r[..|chunks|] + r[|chunks|..];
      }
      assert multiset(r) == multiset(progress) + multiset(tail);
      if response.failure.None? && writable {
        forall i | 0 <= i < |r|
          ensures !r[i].Error?
        {
          if i < |chunks| {
            assert r[i] == progress[i];
          } else {
            assert r[i] == tail[i - |chunks|];
          }
        }
      }
    }
  }

  /**
    `done` comes at most once, only as the last event, only when the stream
    opened and nothing failed, and never together with an error; a failed
    open is the first event.
   */
  lemma TraceOutcome(t: Transfer)
    ensures var r := Trace(t);
      && DoneCount(r) <= 1
      && (DoneCount(r) == 1 <==>
            t.openFailure.None? && t.response.Responded? && t.response.status == StatusOk && t.response.failure.None?)
      && (DoneCount(r) == 1 ==> r[|r| - 1] == Done)
      && (DoneCount(r) == 1 ==> forall i :: 0 <= i < |r| ==> !r[i].Error?)
      && (t.openFailure.Some? ==> r[0] == Error(HandleError(t.openFailure.value)))
  {
    var r := Trace(t);
    var opening := OpenErrors(t);
    var rest := ResponseTrace(t.response, t.openFailure.None?);
    assert r == opening + rest by {
      assert r == r[..|opening|] + r[|opening|..];
    }
    assert Done !in multiset(opening);
    assert multiset(r) == multiset(opening) + multiset(rest);
    ResponseOutcome(t.response, t.openFailure.None?);
    if t.openFailure.None? {
      assert r == rest;
    }
    if t.openFailure.Some? {
      assert r[0] == opening[0];
    }
  }

  /**
    A bad status gives no progress and no `done`: only errors, ending with the
    one carrying the status, after the open error if the stream failed to open.
   */
  lemma BadStatusGivesOnlyErrors(t: Transfer)
    requires t.response.Responded? && t.response.status != StatusOk
    ensures var r := Trace(t);
      && |r| == |OpenErrors(t)| + 1
      && (forall i :: 0 <= i < |r| ==> r[i].Error?)
      && r[|r| - 1] == Error(StatusError(t.response.status))
  {
    var r := Trace(t);
    var opening := OpenErrors(t);
    assert r == opening + [Error(StatusError(t.response.status))] by {
      assert r == r[..|opening|] + r[|opening|..];
    }
  }

  /** A progress event in a trace is one of a 200 response's progress events, after the open error if any. */
  lemma ProgressAt(t: Transfer, p: nat)
    requires p < |Trace(t)| && Trace(t)[p].Progress?
    ensures t.response.Responded? && t.response.status == StatusOk
    ensures |OpenErrors(t)| <= p < |OpenErrors(t)| + |t.response.chunks|
    ensures Trace(t)[p] == ProgressEvents(t.response.chunks, 0, t.response.contentLength)[p - |OpenErrors(t)|]
  {
    var r := Trace(t);
    var opening := OpenErrors(t);
    var k := |opening|;
    var rest := ResponseTrace(t.response, t.openFailure.None?);
    assert r == opening + rest by {
      assert r == r[..k] + r[k..];
    }
    assert k <= p;
    assert r[p] == rest[p - k];
    assert t.response.Responded? && t.response.status == StatusOk;
    var chunks := t.response.chunks;
    var tail := rest[|chunks|..];
    assert rest == rest[..|chunks|] + tail;
    assert |tail| <= 1 && forall e :: e in tail ==> !e.Progress?;
    assert p - k < |chunks|;
    assert rest[p - k] == rest[..|chunks|][p - k];
  }

  /** Within one run of progress events, counts never go down and the total is fixed. */
  lemma ProgressEventsMonotone(chunks: seq<nat>, total: Option<int>, a: nat, b: nat)
    requires a <= b < |chunks|
    ensures ProgressEvents(chunks, 0, total)[a].current <= ProgressEvents(chunks, 0, total)[b].current
    ensures ProgressEvents(chunks, 0, total)[a].total == ProgressEvents(chunks, 0, total)[b].total
  {
    ProgressEventsAreRunningSums(chunks, 0, total);
    SumPrefixMonotone(chunks, a + 1, b + 1);
  }

  /** Progress counts never go down and every event reports the same total. */
  lemma ProgressMonotone(t: Transfer, i: nat, j: nat)
    requires i <= j < |Trace(t)|
    requires Trace(t)[i].Progress? && Trace(t)[j].Progress?
    ensures Trace(t)[i].current <= Trace(t)[j].current
    ensures Trace(t)[i].total == Trace(t)[j].total
  {
    ProgressAt(t, i);
    ProgressAt(t, j);
    var k := |OpenErrors(t)|;
    ProgressEventsMonotone(t.response.chunks, t.response.contentLength, i - k, j - k);
  }

  lemma {:induction false} SumPrefixMonotone(chunks: seq<nat>, a: nat, b: nat)
    requires a <= b <= |chunks|
    ensures Sum(chunks[..a]) <= Sum(chunks[..b])
    decreases b - a
  {
    if a < b {
      SumPrefixMonotone(chunks, a, b - 1);
      SumAppend(chunks, b - 1);
    }
  }

  /** When the content length is the byte count, the last progress event reports `current == total`. */
  lemma FinalProgressReachesTotal(chunks: seq<nat>)
    requires chunks != []
    ensures var r := Trace(Transfer(None, Responded(StatusOk, Some(Sum(chunks)), chunks, None)));
      r[|chunks| - 1] == Progress(Sum(chunks), Some(Sum(chunks)))
  {
    var t := Transfer(None, Responded(StatusOk, Some(Sum(chunks)), chunks, None));
    var r := Trace(t);
    var rest := ResponseTrace(t.response, true);
    assert r == rest;
    ProgressEventsAreRunningSums(chunks, 0, Some(Sum(chunks)));
    assert chunks[..|chunks|] == chunks;
    assert r[|chunks| - 1] == r[..|chunks|][|chunks| - 1];
  }

  /** Chunks "foo" and "bar" with content length 6: progress 3 of 6, then 6 of 6, then done. */
  lemma FooBarExample()
    ensures Trace(Transfer(None, Responded(StatusOk, Some(6), [3, 3], None))) ==
      [Progress(3, Some(6)), Progress(6, Some(6)), Done]
  {
    var r := Trace(Transfer(None, Responded(StatusOk, Some(6), [3, 3], None)));
    assert r == r[..2] + r[2..];
    var chunks: seq<nat> := [3, 3];
    ProgressEventsAreRunningSums(chunks, 0, Some(6));
    assert chunks[..1] == [3] && chunks[..2] == [3, 3];
    assert Sum([3]) == 3 && Sum([3, 3]) == 6 by {
      assert [3, 3][1..] == [3];
      assert [3][1..] == [];
    }
    assert r[0] == r[..2][0] && r[1] == r[..2][1];
  }
}

=== FILE: remote_console.dfy ===
/**
  The interactive remote console (src/services/RemoteConsoleUI.js): submitting
  a line, the `waiting` flag between a sent command and its evaluation, the
  prompt rule of the wrapped console and history navigation.

  readline and the terminal are abstracted to the line, cursor and paused
  state plus a trace of `Effect`s; the command history, whose source is not
  part of this model, is a sequence with a cursor (`History`).
 */
module RemoteConsole {
  import DebugServer
  import DC = DebugConnection

  const ExitCommand := "exit"
  const NoDeviceMessage := "Command could not be sent: no device connected!"

  datatype Direction = Prev | Next

  /**
    Stand-in for the command history: the entries and a cursor into them.
    `position == |entries|` is the empty slot after the last entry.
   */
  datatype History = History(entries: seq<string>, position: nat)

  function AddToHistory(h: History, command: string): (h': History)
    ensures h'.entries == h.entries + [command]
    ensures h'.position == |h'.entries|
  {
    History(h.entries + [command], |h.entries| + 1)
  }

  function MoveHistory(h: History, d: Direction): (h': History)
    ensures h'.entries == h.entries
  {
    match d
    case Prev => h.(position := if h.position == 0 then 0 else h.position - 1)
    case Next => h.(position := if h.position >= |h.entries| then |h.entries| else h.position + 1)
  }

  function CurrentHistory(h: History): (s: string)
    ensures h.position < |h.entries| ==> s == h.entries[h.position]
    ensures h.position >= |h.entries| ==> s == ""
  {
    if h.position < |h.entries| then h.entries[h.position] else ""
  }

  datatype Console = Console(history: History, waiting: bool, line: string, cursor: nat, paused: bool)

  /** A fresh console: not waiting, empty line, input flowing. */
  function New(history: History): (ui: Console)
    ensures !ui.waiting && ui.line == "" && ui.cursor == 0 && !ui.paused && ui.history == history
  {
    Console(history, false, "", 0, false)
  }

  datatype Effect =
    | ClearLine
    | Print(text: string)
    /** `prompt(preserveCursor)`; it also resumes paused input. */
    | Prompt(preserveCursor: bool)
    | Exit
    /** Something the debug connection did to its socket on the console's behalf. */
    | Socket(effect: DC.Effect)

  datatype Outcome = Outcome(ui: Console, effects: seq<Effect>)

  /** The debug connection's effects, in order, as console effects. */
  function OnSocket(effects: seq<DC.Effect>): (r: seq<Effect>)
    ensures |r| == |effects| && forall i :: 0 <= i < |r| ==> r[i] == Socket(effects[i])
  {
    seq(|effects|, i requires 0 <= i < |effects| => Socket(effects[i]))
  }

  /** `line.replace(/;*$/, '')`: drop the maximal run of trailing semicolons. */
  function StripTrailingSemicolons(line: string): (r: string)
    ensures |r| <= |line| && r == line[..|r|]
    ensures forall i :: |r| <= i < |line| ==> line[i] == ';'
    ensures r == [] || r[|r| - 1] != ';'
    decreases |line|
  {
    if |line| > 0 && line[|line| - 1] == ';' then
      var r := StripTrailingSemicolons(line[..|line| - 1]);
      assert line[..|line| - 1][..|r|] == line[..|r|];
      r
    else
      line
  }

  lemma StripIdempotent(line: string)
    ensures StripTrailingSemicolons(StripTrailingSemicolons(line)) == StripTrailingSemicolons(line)
  {
  }

  /** `n` semicolons. */
  function Semicolons(n: nat): (s: string)
    ensures |s| == n && forall i :: 0 <= i < n ==> s[i] == ';'
  {
    seq(n, _ => ';')
  }

  /**
    Stripping removes exactly the trailing run: a body that does not end in a
    semicolon comes back unchanged, whatever semicolons it holds inside.
   */
  lemma StripKeepsInteriorSemicolons(body: string, n: nat)
    requires body == [] || body[|body| - 1] != ';'
    ensures StripTrailingSemicolons(body + Semicolons(n)) == body
  {
    var line := body + Semicolons(n);
    var r := StripTrailingSemicolons(line);
    assert forall k :: |body| <= k < |line| ==> line[k] == ';';
    if |body| > 0 {
      assert line[|body| - 1] == body[|body| - 1];
    }
    if |r| > 0 {
      assert r[|r| - 1] == line[|r| - 1];
    }
    assert |r| == |body|;
    assert line[..|body|] == body;
  }

  /** A console method call: output goes through the wrapper, which re-prompts only when not waiting. */
  function ConsoleOutput(ui: Console, text: string): (o: Outcome)
    ensures o.ui.waiting == ui.waiting && o.ui.line == ui.line && o.ui.history == ui.history
    ensures o.ui.cursor == ui.cursor && (o.ui.paused <==> ui.paused && ui.waiting)
    ensures |o.effects| == 2 || |o.effects| == 3
    ensures o.effects[..2] == [ClearLine, Print(text)]
    ensures |o.effects| == 3 <==> !ui.waiting
    ensures |o.effects| == 3 ==> o.effects[2] == Prompt(true)
  {
    if ui.waiting then Outcome(ui, [ClearLine, Print(text)])
    else Outcome(ui.(paused := false), [ClearLine, Print(text), Prompt(true)])
  }

  /**
    A submitted line. After stripping, an empty command does nothing and
    `exit` ends the process; anything else joins the history and is sent: on
    success the console waits with input paused, otherwise it reports that no
    device is connected.
   */
  function SubmitCommand(ui: Console, server: DebugServer.Server, line: string): (o: Outcome)
    ensures var command := StripTrailingSemicolons(line);
      && (command == "" ==> o == Outcome(ui, []))
      && (command == ExitCommand ==> o.effects == [Exit])
      && (command != "" && command != ExitCommand ==>
            && o.ui.history == AddToHistory(ui.history, command)
            && var sent := DebugServer.SendCommand(server, command);
               && (sent.ok ==> o.ui == ui.(history := AddToHistory(ui.history, command), waiting := true, paused := true)
                               && o.effects == OnSocket(sent.effects)
                               && o.effects == [Socket(DC.Transmit(command))])
               && (!sent.ok ==> o.ui.waiting == ui.waiting && Print(NoDeviceMessage) in o.effects
                                && Socket(DC.Transmit(command)) !in o.effects
                                && o == ConsoleOutput(ui.(history := AddToHistory(ui.history, command)), NoDeviceMessage)))
  {
    var command := StripTrailingSemicolons(line);
    if command == "" then Outcome(ui, [])
    else if command == ExitCommand then Outcome(ui, [Exit])
    else
      var ui1 := ui.(history := AddToHistory(ui.history, command));
      var sent := DebugServer.SendCommand(server, command);
      if sent.ok then
        Outcome(ui1.(waiting := true, paused := true), OnSocket(sent.effects))
      else
        var printed := ConsoleOutput(ui1, NoDeviceMessage);
        assert printed.effects[1] == Print(NoDeviceMessage);
        printed
  }

  /**
    `_onEvaluationCompleted`: only while waiting, stop waiting, clear the line
    and prompt; `prompt()` without `preserveCursor` puts the cursor at 0.
   */
  function EvaluationCompleted(ui: Console): (o: Outcome)
    ensures !ui.waiting ==> o == Outcome(ui, [])
    ensures ui.waiting ==>
      !o.ui.waiting && o.ui.line == "" && o.ui.cursor == 0 && !o.ui.paused && o.effects == [Prompt(false)]
    ensures o.ui.history == ui.history
  {
    if ui.waiting then Outcome(ui.(waiting := false, line := "", cursor := 0, paused := false), [Prompt(false)])
    else Outcome(ui, [])
  }

  /** `_updateInput`: move through the history and show the entry, cursor at its end. */
  function UpdateInput(ui: Console, d: Direction): (o: Outcome)
    ensures o.ui.history == MoveHistory(ui.history, d)
    ensures o.ui.line == CurrentHistory(o.ui.history) && o.ui.cursor == |o.ui.line|
    ensures o.ui.waiting == ui.waiting && o.effects == [Prompt(true)]
    ensures !o.ui.paused
  {
    var h := MoveHistory(ui.history, d);
    var command := CurrentHistory(h);
    Outcome(ui.(history := h, line := command, cursor := |command|, paused := false), [Prompt(true)])
  }

  /** A key press: only `up` and `down` are acted on. */
  function Keypress(ui: Console, keyName: string): (o: Outcome)
    ensures keyName != "up" && keyName != "down" ==> o == Outcome(ui, [])
    ensures keyName == "up" ==> o == UpdateInput(ui, Prev)
    ensures keyName == "down" ==> o == UpdateInput(ui, Next)
  {
    if keyName == "up" then UpdateInput(ui, Prev)
    else if keyName == "down" then UpdateInput(ui, Next)
    else Outcome(ui, [])
  }

  /**
    A successful submission waits until the evaluation completes: console
    output in between does not prompt, and the completion prompts once and
    releases the console.
   */
  lemma SubmitThenComplete(ui: Console, server: DebugServer.Server, line: string, text: string)
    requires StripTrailingSemicolons(line) !in {"", ExitCommand}
    requires DebugServer.SendCommand(server, StripTrailingSemicolons(line)).ok
    ensures var submitted := SubmitCommand(ui, server, line);
      var printed := ConsoleOutput(submitted.ui, text);
      var done := EvaluationCompleted(printed.ui);
      && Prompt(true) !in printed.effects
      && done.effects == [Prompt(false)] && !done.ui.waiting
      && EvaluationCompleted(done.ui) == Outcome(done.ui, [])
  {
    var submitted := SubmitCommand(ui, server, line);
    var printed := ConsoleOutput(submitted.ui, text);
    assert printed.effects == [ClearLine, Print(text)];
  }

  /** A line that is empty after stripping leaves history, waiting flag and input untouched. */
  lemma EmptySubmissionIsIgnored(ui: Console, server: DebugServer.Server, n: nat)
    ensures SubmitCommand(ui, server, Semicolons(n)) == Outcome(ui, [])
  {
    StripKeepsInteriorSemicolons([], n);
    assert [] + Semicolons(n) == Semicolons(n);
  }
}

=== FILE: root_tabris_app.dfy ===
/**
  Project checks of the `TabrisApp` in src/TabrisApp.js, the variant without
  a `main` check, with major-and-minor version matching and its own ignore
  list, compared with the variant in src/services/TabrisApp.js.
 */
module RootTabrisApp {
  import opened Wrappers
  import opened TabrisVersions
  import Services = ServicesTabrisApp

  /** The constructor: package.json first, then the cordova directory; `main` is not looked at. */
  function Create(path: Services.Path, p: Services.Project): (r: Result<Services.App, Thrown>)
    ensures r.Success? <==> p.hasPackageJson && p.hasCordovaDir
    ensures !p.hasPackageJson ==> r == Failure(ThrownString(Services.MissingPackageJson))
    ensures p.hasPackageJson && !p.hasCordovaDir ==> r == Failure(ThrownString(Services.MissingCordova))
    ensures r.Success? ==> r.value.path == path && r.value.installed.None?
  {
    if !p.hasPackageJson then Failure(ThrownString(Services.MissingPackageJson))
    else if !p.hasCordovaDir then Failure(ThrownString(Services.MissingCordova))
    else Success(Services.App(path, None))
  }

  /** The range this variant requires: same major and minor, any patch. */
  function RequiredRange(required: Version): (r: Range)
    ensures forall v :: Satisfies(v, r) <==> v.major == required.major && v.minor == required.minor
  {
    Range(required.major, Some(required.minor))
  }

  /** `validateInstalledTabrisVersion`, passing iff major and minor both match. */
  function ValidateInstalledTabrisVersion(app: Services.App, required: Version): (r: Result<Services.App, Thrown>)
    ensures var actual := Services.InstalledVersion(app);
      && (r.Success? <==> actual.parsed.Some? && actual.parsed.value.major == required.major
                           && actual.parsed.value.minor == required.minor)
      && (r.Success? ==> r.value == app)
      && (actual.parsed.None? ==> r == Failure(ThrownError(InvalidVersionMessage(actual))))
      && (actual.parsed.Some? && r.Failure? ==>
            r.error == ThrownError(IncompatibleMessage(actual, RequiredRange(required)))
            && !Satisfies(actual.parsed.value, RequiredRange(required)))
  {
    var actual := Services.InstalledVersion(app);
    match actual.parsed
    case None => Failure(ThrownError(InvalidVersionMessage(actual)))
    case Some(v) =>
      if Satisfies(v, RequiredRange(required)) then Success(app)
      else Failure(ThrownError(IncompatibleMessage(actual, RequiredRange(required))))
  }

  /** After creating the Cordova project, validation passes iff the version found there has the required major and minor. */
  lemma CreatedCompatibleVersionPasses(path: Services.Path, p: Services.Project, installed: Installed, required: Version)
    requires Create(path, p).Success?
    ensures var app := Services.CreateCordovaProject(Create(path, p).value, installed);
      ValidateInstalledTabrisVersion(app, required).Success? <==>
        installed.parsed.Some? && installed.parsed.value.major == required.major
        && installed.parsed.value.minor == required.minor
  {
  }

  /** The incompatibility message names `M.m.x`, readable back, excluding the installed version. */
  lemma MismatchNamesRequiredRange(app: Services.App, required: Version)
    requires Services.InstalledVersion(app).parsed.Some?
    requires ValidateInstalledTabrisVersion(app, required).Failure?
    ensures var range := RequiredRange(required);
      && ParseRange(RangeText(range)) == Some(range)
      && RangeText(range)[|RangeText(range)| - 2..] == ".x"
      && Satisfies(required, range) && !Satisfies(Services.InstalledVersion(app).parsed.value, range)
  {
    ParseRangeText(RequiredRange(required));
  }

  /** The ignore patterns, in this variant's order. */
  function IgnorePatterns(relativeDestination: string): (patterns: seq<string>)
    ensures |patterns| == 5 && patterns[3] == relativeDestination
    ensures patterns[..3] == [".git/", "node_modules/", "cordova/"] && patterns[4] == ".tabrisignore"
  {
    [".git/", "node_modules/", "cordova/", relativeDestination, ".tabrisignore"]
  }

  /** Every version this variant accepts is accepted by the major-only variant, and patch never matters. */
  lemma StricterThanMajorOnly(app: Services.App, required: Version)
    ensures ValidateInstalledTabrisVersion(app, required).Success? ==>
      Services.ValidateInstalledTabrisVersion(app, required).Success?
    ensures forall patch: nat ::
      ValidateInstalledTabrisVersion(app, required).Success? <==>
      ValidateInstalledTabrisVersion(app, required.(patch := patch)).Success?
  {
  }

  /** Invalid versions fail with the same message in both variants. */
  lemma SameInvalidMessage(app: Services.App, required: Version)
    requires Services.InstalledVersion(app).parsed.None?
    ensures ValidateInstalledTabrisVersion(app, required) == Services.ValidateInstalledTabrisVersion(app, required)
  {
  }

  /**
    A project this variant rejects is rejected by the other too, with the same
    message when package.json is missing; the other variant also demands `main`.
   */
  lemma ConstructorsAgreeButForMain(path: Services.Path, p: Services.Project)
    ensures Create(path, p).Failure? ==> Services.Create(path, p).Failure?
    ensures !p.hasPackageJson ==> Services.Create(path, p) == Create(path, p)
    ensures Services.Create(path, p).Success? <==> Create(path, p).Success? && Services.HasMain(p)
  {
  }

  /** Both variants ignore the same patterns, except that the other variant also ignores `build/`. */
  lemma IgnoreSetsDifferByBuild(relativeDestination: string)
    ensures (set x | x in Services.IgnorePatterns(relativeDestination)) ==
      (set x | x in IgnorePatterns(relativeDestination)) + {"build/"}
  {
    var a := Services.IgnorePatterns(relativeDestination);
    var b := IgnorePatterns(relativeDestination);
    assert forall x :: x in a <==> x in b || x == "build/";
  }
}

=== FILE: services_tabris_app.dfy ===
/**
  Project checks of the `TabrisApp` in src/services/TabrisApp.js: ordered
  constructor validation, the major-only version check, the Cordova copy
  filter and the ignore list for copying JavaScript files.

  The file system is abstracted: the constructor receives what it would find
  on disk, and paths are sequences of segments joined by concatenation.
 */
module ServicesTabrisApp {
  import opened Wrappers
  import opened TabrisVersions

  const MissingPackageJson := "Could not find package.json"
  const MissingMain := "package.json must contain a \"main\" field"
  const MissingCordova := "Could not find cordova directory"

  const DefaultIgnores: seq<string> := [".git/", ".tabrisignore", "node_modules/", "build/", "cordova/"]

  /** Cordova sub-directories that are not copied. */
  const ExcludedCordovaDirs: seq<string> := ["www", "platform", "plugins"]

  type Path = seq<string>

  /**
    What the constructor finds under the app path: whether package.json and
    the cordova directory exist, and package.json's `main` field.
   */
  datatype Project = Project(hasPackageJson: bool, main: Option<string>, hasCordovaDir: bool)

  /** `main` is truthy: present and not the empty string. */
  predicate HasMain(p: Project) {
    p.main.Some? && p.main.value != ""
  }

  datatype App = App(path: Path, installed: Option<Installed>)

  /** The constructor: the first failing check, in order, decides the string thrown. */
  function Create(path: Path, p: Project): (r: Result<App, Thrown>)
    ensures r.Success? <==> p.hasPackageJson && HasMain(p) && p.hasCordovaDir
    ensures !p.hasPackageJson ==> r == Failure(ThrownString(MissingPackageJson))
    ensures p.hasPackageJson && !HasMain(p) ==> r == Failure(ThrownString(MissingMain))
    ensures p.hasPackageJson && HasMain(p) && !p.hasCordovaDir ==> r == Failure(ThrownString(MissingCordova))
    ensures r.Success? ==> r.value.path == path && r.value.installed.None?
  {
    if !p.hasPackageJson then Failure(ThrownString(MissingPackageJson))
    else if !HasMain(p) then Failure(ThrownString(MissingMain))
    else if !p.hasCordovaDir then Failure(ThrownString(MissingCordova))
    else Success(App(path, None))
  }

  /** `createCordovaProject`: copying and npm install are not modelled; afterwards the installed version is known. */
  function CreateCordovaProject(app: App, installed: Installed): (app': App)
    ensures app'.path == app.path && app'.installed == Some(installed)
  {
    app.(installed := Some(installed))
  }

  /** `installedTabrisVersion`. */
  function InstalledVersion(app: App): (v: Installed)
    ensures app.installed.None? ==> v == NotInstalled
    ensures app.installed.Some? ==> v == app.installed.value
  {
    app.installed.GetOr(NotInstalled)
  }

  /** The range this variant requires: same major, any minor and patch. */
  function RequiredRange(required: Version): (r: Range)
    ensures forall v :: Satisfies(v, r) <==> v.major == required.major
  {
    Range(required.major, None)
  }

  /**
    `validateInstalledTabrisVersion`: an installed version semver rejects is
    invalid; a valid one passes iff its major equals the required major, and
    otherwise the error names the actual text and the required range.
   */
  function ValidateInstalledTabrisVersion(app: App, required: Version): (r: Result<App, Thrown>)
    ensures var actual := InstalledVersion(app);
      && (r.Success? <==> actual.parsed.Some? && actual.parsed.value.major == required.major)
      && (r.Success? ==> r.value == app)
      && (actual.parsed.None? ==> r == Failure(ThrownError(InvalidVersionMessage(actual))))
      && (actual.parsed.Some? && r.Failure? ==>
            r.error == ThrownError(IncompatibleMessage(actual, RequiredRange(required)))
            && !Satisfies(actual.parsed.value, RequiredRange(required)))
  {
    var actual := InstalledVersion(app);
    match actual.parsed
    case None => Failure(ThrownError(InvalidVersionMessage(actual)))
    case Some(v) =>
      if Satisfies(v, RequiredRange(required)) then Success(app)
      else Failure(ThrownError(IncompatibleMessage(actual, RequiredRange(required))))
  }

  /** Before a Cordova project was created the version is `undefined`, which is invalid. */
  lemma ValidateBeforeCreateFails(path: Path, p: Project, required: Version)
    requires Create(path, p).Success?
    ensures ValidateInstalledTabrisVersion(Create(path, p).value, required) ==
      Failure(ThrownError("App uses invalid tabris version: undefined"))
  {
    assert InvalidVersionMessage(NotInstalled) == "App uses invalid tabris version: undefined";
  }

  /**
    After creating the Cordova project, validation looks at the version found
    there: it passes iff semver accepts it and its major is the required one.
   */
  lemma CreatedCompatibleVersionPasses(path: Path, p: Project, installed: Installed, required: Version)
    requires Create(path, p).Success?
    ensures var app := CreateCordovaProject(Create(path, p).value, installed);
      ValidateInstalledTabrisVersion(app, required).Success? <==>
        installed.parsed.Some? && installed.parsed.value.major == required.major
  {
  }

  /**
    The incompatibility message names a range that can be read back, that the
    required version satisfies and the installed one does not.
   */
  lemma MismatchNamesRequiredRange(app: App, required: Version)
    requires InstalledVersion(app).parsed.Some?
    requires ValidateInstalledTabrisVersion(app, required).Failure?
    ensures var range := RequiredRange(required);
      && ValidateInstalledTabrisVersion(app, required).error.ThrownError?
      && ValidateInstalledTabrisVersion(app, required).error.message ==
           IncompatiblePrefix + InstalledVersion(app).text + ", " + RangeText(range) + RequiredSuffix
      && ParseRange(RangeText(range)) == Some(range)
      && RangeText(range)[|RangeText(range)| - 4..] == ".x.x"
      && Satisfies(required, range) && !Satisfies(InstalledVersion(app).parsed.value, range)
  {
    ParseRangeText(RequiredRange(required));
  }

  /** The `filter` of `_copyCordovaFiles`: it rejects exactly the three excluded sub-directories (whose contents `copySync` then never visits). */
  function CopyCordovaFilter(appPath: Path, p: Path): (copied: bool)
    ensures !copied <==> exists sub :: sub in ExcludedCordovaDirs && p == appPath + ["cordova", sub]
  {
    var excluded := seq(|ExcludedCordovaDirs|, i requires 0 <= i < |ExcludedCordovaDirs| =>
      appPath + ["cordova", ExcludedCordovaDirs[i]]);
    assert forall sub :: sub in ExcludedCordovaDirs ==> appPath + ["cordova", sub] in excluded by {
      forall sub | sub in ExcludedCordovaDirs
        ensures appPath + ["cordova", sub] in excluded
      {
        var i :| 0 <= i < |ExcludedCordovaDirs| && ExcludedCordovaDirs[i] == sub;
        assert excluded[i] == appPath + ["cordova", sub];
      }
    }
    p !in excluded
  }

  /** The patterns handed to `ignore()` before `.tabrisignore`: the destination first, then the defaults. */
  function IgnorePatterns(relativeDestination: string): (patterns: seq<string>)
    ensures |patterns| == 1 + |DefaultIgnores| && patterns[0] == relativeDestination
    ensures patterns[1..] == DefaultIgnores
  {
    [relativeDestination] + DefaultIgnores
  }
}

=== FILE: tabris_versions.dfy ===
/**
  Tabris versions as the two `TabrisApp` variants see them: the installed
  version's text with what semver makes of it, the required range named in
  the incompatibility message, and the two error messages.
 */
module TabrisVersions {
  import opened Wrappers
  import opened Decimal

  datatype Version = Version(major: nat, minor: nat, patch: nat)

  /**
    `installedTabrisVersion`: the text (`"undefined"` before a Cordova project
    was created) and, when semver accepts the text, its parsed form.
   */
  datatype Installed = Installed(text: string, parsed: Option<Version>)

  const NotInstalled := Installed("undefined", None)

  /**
    What a check throws: the constructors throw a bare string, the version
    checks an `Error` object whose text is its `message`.
   */
  datatype Thrown = ThrownString(text: string) | ThrownError(message: string)

  const InvalidVersionPrefix := "App uses invalid tabris version: "
  const IncompatiblePrefix := "App uses incompatible tabris version: "
  const RequiredSuffix := " required.\n"

  /** A required range, `M.x.x` (minor is `None`) or `M.m.x`. */
  datatype Range = Range(major: nat, minor: Option<nat>)

  predicate Satisfies(v: Version, r: Range) {
    v.major == r.major && (r.minor.Some? ==> v.minor == r.minor.value)
  }

  /** `[major, minor-or-'x', 'x'].join('.')`. */
  function RangeText(r: Range): string {
    var minor := match r.minor
      case None => "x"
      case Some(m) => NatToString(m);
    NatToString(r.major) + "." + minor + ".x"
  }

  function InvalidVersionMessage(actual: Installed): string {
    InvalidVersionPrefix + actual.text
  }

  function IncompatibleMessage(actual: Installed, required: Range): string {
    IncompatiblePrefix + actual.text + ", " + RangeText(required) + RequiredSuffix
  }

  /** `s` cut at every `sep`. */
  function Split(s: string, sep: char): (parts: seq<string>)
    ensures |parts| >= 1
    decreases |s|
  {
    if |s| == 0 then [""]
    else
      var rest := Split(s[1..], sep);
      if s[0] == sep then [""] + rest else [[s[0]] + rest[0]] + rest[1..]
  }

  lemma {:induction false} SplitWithoutSeparator(a: string, sep: char)
    requires sep !in a
    ensures Split(a, sep) == [a]
    decreases |a|
  {
    if |a| > 0 {
      SplitWithoutSeparator(a[1..], sep);
      assert [a[0]] + a[1..] == a;
    }
  }

  lemma {:induction false} SplitAtFirstSeparator(a: string, b: string, sep: char)
    requires sep !in a
    ensures Split(a + [sep] + b, sep) == [a] + Split(b, sep)
    decreases |a|
  {
    var s := a + [sep] + b;
    if |a| == 0 {
      assert s[1..] == b;
    } else {
      assert s[1..] == a[1..] + [sep] + b;
      SplitAtFirstSeparator(a[1..], b, sep);
      assert [a[0]] + a[1..] == a;
    }
  }

  /** Reads `M.x.x` or `M.m.x` back. */
  function ParseRange(s: string): Option<Range> {
    var parts := Split(s, '.');
    if |parts| != 3 || parts[2] != "x" then None
    else match ParseDecimal(parts[0])
      case None => None
      case Some(major) =>
        if parts[1] == "x" then Some(Range(major, None))
        else match ParseDecimal(parts[1])
          case None => None
          case Some(minor) => Some(Range(major, Some(minor)))
  }

  lemma NoDotInNumber(n: nat)
    ensures '.' !in NatToString(n)
  {
    var s := NatToString(n);
    forall i | 0 <= i < |s|
      ensures s[i] != '.'
    {
      assert IsDigit(s[i]);
    }
  }

  /** The range named in a message can be read back exactly. */
  lemma ParseRangeText(r: Range)
    ensures ParseRange(RangeText(r)) == Some(r)
  {
    var major := NatToString(r.major);
    var minor := match r.minor
      case None => "x"
      case Some(m) => NatToString(m);
    NoDotInNumber(r.major);
    if r.minor.Some? {
      NoDotInNumber(r.minor.value);
      ParseNatToString(r.minor.value);
    }
    ParseNatToString(r.major);
    SplitWithoutSeparator("x", '.');
    SplitAtFirstSeparator(minor, "x", '.');
    assert RangeText(r) == major + ['.'] + (minor + ['.'] + "x");
    SplitAtFirstSeparator(major, minor + ['.'] + "x", '.');
    assert Split(RangeText(r), '.') == [major, minor, "x"];
    assert ParseDecimal("x") == None;
  }
}

=== FILE: watcher.dfy ===
/**
  The reload watcher (src/services/Watcher.js): every delivered url joins the
  watch set, and a change to a watched file that still exists asks the debug
  server to reload the app, logging a notice when the command went out.

  The file watcher library is abstracted: it reports changes only for files
  in the watch set, and its 1000 ms debounce has already been applied to the
  `FileChanged` events given here.
 */
module Watcher {
  import DebugServer
  import DC = DebugConnection

  const ReloadCommand := "tabris.app.reload()"
  const NoticeSuffix := "' changed, reloading app..."

  /** `listeners` counts the `change` handlers registered by `start`. */
  datatype Watcher = Watcher(watched: set<string>, listeners: nat)

  /** The constructor: nothing watched, no `change` handler yet. */
  const Initial := Watcher({}, 0)

  datatype Event = FileDelivered(url: string) | FileChanged(filename: string, hasStat: bool) | Started | Stopped

  /**
    A reload request with what the server's `send` answered (including what
    the connection did to its socket), or a notice written to the terminal.
   */
  datatype Effect = Reload(command: string, result: DC.SendResult) | Notice(text: string)

  /** `deliver` from the server: the url is watched from now on. */
  function Deliver(w: Watcher, url: string): (w': Watcher)
    ensures w'.watched == w.watched + {url} && w'.listeners == w.listeners
  {
    w.(watched := w.watched + {url})
  }

  /** `start`: registers one more `change` handler. */
  function Start(w: Watcher): (w': Watcher)
    ensures w'.watched == w.watched && w'.listeners == w.listeners + 1
  {
    w.(listeners := w.listeners + 1)
  }

  /** `stop`: the file watcher forgets every file; registered handlers stay. */
  function Stop(w: Watcher): (w': Watcher)
    ensures w'.watched == {} && w'.listeners == w.listeners
  {
    w.(watched := {})
  }

  /** The text logged for a change of `filename`. */
  function NoticeText(filename: string): (text: string)
    ensures |text| == |filename| + |NoticeSuffix|
    ensures text[..|filename|] == filename && text[|filename|..] == NoticeSuffix
  {
    filename + NoticeSuffix
  }

  /** What one `change` handler does: with a stat, send the reload command and log the notice if it was sent. */
  function OnChange(server: DebugServer.Server, filename: string, hasStat: bool): (effects: seq<Effect>)
    ensures !hasStat ==> effects == []
    ensures hasStat ==>
      && |effects| >= 1
      && effects[0] == Reload(ReloadCommand, DebugServer.SendCommand(server, ReloadCommand))
      && (|effects| == 2 <==> effects[0].result.ok)
      && (|effects| == 2 ==> effects[1] == Notice(NoticeText(filename)))
      && |effects| <= 2
  {
    if !hasStat then []
    else
      var result := DebugServer.SendCommand(server, ReloadCommand);
      [Reload(ReloadCommand, result)] + (if result.ok then [Notice(NoticeText(filename))] else [])
  }

  /** Number of reload requests among `effects`. */
  function Reloads(effects: seq<Effect>): nat {
    if effects == [] then 0 else (if effects[0].Reload? then 1 else 0) + Reloads(effects[1..])
  }

  lemma {:induction false} ReloadsAppend(a: seq<Effect>, b: seq<Effect>)
    ensures Reloads(a + b) == Reloads(a) + Reloads(b)
    decreases |a|
  {
    if a != [] {
      ReloadsAppend(a[1..], b);
      assert (a + b)[1..] == a[1..] + b;
    } else {
      assert a + b == b;
    }
  }

  /** One handler's effects: one reload with a stat, and one notice iff the send succeeded. */
  lemma OnChangeCounts(server: DebugServer.Server, filename: string, hasStat: bool)
    ensures var first := OnChange(server, filename, hasStat);
      && Reloads(first) == (if hasStat then 1 else 0)
      && multiset(first)[Notice(NoticeText(filename))] ==
           (if hasStat && DebugServer.SendCommand(server, ReloadCommand).ok then 1 else 0)
  {
    var first := OnChange(server, filename, hasStat);
    if hasStat {
      if |first| == 2 {
        assert first == [first[0], first[1]];
        assert first[1..] == [first[1]] && first[1..][1..] == [];
        assert Reloads(first[1..]) == 0;
      } else {
        assert first == [first[0]];
        assert first[1..] == [];
      }
    }
  }

  /** Two runs of effects drawn from `allowed` concatenate to one. */
  lemma AllFrom(a: seq<Effect>, b: seq<Effect>, allowed: seq<Effect>)
    requires forall i :: 0 <= i < |a| ==> a[i] in allowed
    requires forall i :: 0 <= i < |b| ==> b[i] in allowed
    ensures forall i :: 0 <= i < |a + b| ==> (a + b)[i] in allowed
  {
  }

  /** The change handlers, each in turn. */
  function Handlers(n: nat, server: DebugServer.Server, filename: string, hasStat: bool): (effects: seq<Effect>)
    ensures Reloads(effects) == (if hasStat then n else 0)
    ensures !hasStat ==> effects == []
    ensures forall i :: 0 <= i < |effects| ==> effects[i].Reload? ==> effects[i].command == ReloadCommand
    ensures forall i :: 0 <= i < |effects| ==> effects[i] in OnChange(server, filename, hasStat)
    ensures multiset(effects)[Notice(NoticeText(filename))] ==
      (if hasStat && DebugServer.SendCommand(server, ReloadCommand).ok then n else 0)
    decreases n
  {
    if n == 0 then []
    else
      var first := OnChange(server, filename, hasStat);
      var rest := Handlers(n - 1, server, filename, hasStat);
      OnChangeCounts(server, filename, hasStat);
      ReloadsAppend(first, rest);
      assert multiset(first + rest) == multiset(first) + multiset(rest);
      AllFrom(first, rest, first);
      first + rest
  }

  /** A change reported by the file watcher; it only reports files it watches. */
  function Change(w: Watcher, server: DebugServer.Server, filename: string, hasStat: bool): (effects: seq<Effect>)
    ensures filename !in w.watched || !hasStat ==> effects == []
    ensures Reloads(effects) == (if filename in w.watched && hasStat then w.listeners else 0)
    ensures forall i :: 0 <= i < |effects| ==> effects[i] in OnChange(server, filename, hasStat)
    ensures multiset(effects)[Notice(NoticeText(filename))] ==
      (if filename in w.watched && hasStat && DebugServer.SendCommand(server, ReloadCommand).ok then w.listeners else 0)
  {
    if filename in w.watched then Handlers(w.listeners, server, filename, hasStat) else []
  }

  /** One started watcher: a change to a delivered, existing file sends exactly one reload, logged iff sent. */
  lemma ChangeOfDeliveredFile(server: DebugServer.Server, filename: string)
    ensures var w := Deliver(Start(Initial), filename);
      var sent := DebugServer.SendCommand(server, ReloadCommand);
      Change(w, server, filename, true) ==
        [Reload(ReloadCommand, sent)] + (if sent.ok then [Notice(NoticeText(filename))] else [])
  {
    var w := Deliver(Start(Initial), filename);
    var first := OnChange(server, filename, true);
    assert Change(w, server, filename, true) == first + [];
  }

  function Step(w: Watcher, server: DebugServer.Server, e: Event): (r: (Watcher, seq<Effect>))
  {
    match e
    case FileDelivered(url) => (Deliver(w, url), [])
    case FileChanged(filename, hasStat) => (w, Change(w, server, filename, hasStat))
    case Started => (Start(w), [])
    case Stopped => (Stop(w), [])
  }

  /** Urls delivered among `events`. */
  function Delivered(events: seq<Event>): (urls: set<string>)
  {
    if events == [] then {}
    else (if events[0].FileDelivered? then {events[0].url} else {}) + Delivered(events[1..])
  }

  function Run(w: Watcher, server: DebugServer.Server, events: seq<Event>): (r: (Watcher, seq<Effect>))
    decreases |events|
  {
    if events == [] then (w, [])
    else
      var (w1, first) := Step(w, server, events[0]);
      var (w2, rest) := Run(w1, server, events[1..]);
      (w2, first + rest)
  }

  /**
    Without `stop`, the watch set is exactly what it was plus the delivered
    urls: changes and `start` never add to it.
   */
  lemma {:induction false} WatchSetGrowsOnlyByDelivery(w: Watcher, server: DebugServer.Server, events: seq<Event>)
    requires forall i :: 0 <= i < |events| ==> !events[i].Stopped?
    ensures Run(w, server, events).0.watched == w.watched + Delivered(events)
    decreases |events|
  {
    if events != [] {
      var w1 := Step(w, server, events[0]).0;
      WatchSetGrowsOnlyByDelivery(w1, server, events[1..]);
    }
  }

  /** Whatever the run, `stop` included, nothing but a delivered url joins the watch set. */
  lemma {:induction false} WatchSetWithinDelivered(w: Watcher, server: DebugServer.Server, events: seq<Event>)
    ensures Run(w, server, events).0.watched <= w.watched + Delivered(events)
    decreases |events|
  {
    if events != [] {
      var w1 := Step(w, server, events[0]).0;
      WatchSetWithinDelivered(w1, server, events[1..]);
    }
  }

  /** A file never delivered is never watched, so its changes send nothing, in every run. */
  lemma UndeliveredChangeSendsNothing(server: DebugServer.Server, events: seq<Event>, filename: string, hasStat: bool)
    requires filename !in Delivered(events)
    ensures Change(Run(Initial, server, events).0, server, filename, hasStat) == []
  {
    WatchSetWithinDelivered(Initial, server, events);
  }
}

=== FILE: wrappers.dfy ===
/** Optional values and thrown errors, shared by every module of the model. */
module Wrappers {

  /** An optional value: JavaScript's `null`/`undefined` versus a present value. */
  datatype Option<+T> = None | Some(value: T) {

    /** The value, or `default` when there is none. */
    function GetOr(default: T): T {
      match this
      case Some(v) => v
      case None => default
    }
  }

  /** The outcome of an operation that may throw: a value, or the thrown error. */
  datatype Result<+R, +E> = Success(value: R) | Failure(error: E)
}
